=== FILE: README.md ===
# Sublime-Progtest test runner, modelled in Dafny

Sublime-Progtest is a Sublime Text command (`test.py`) that tests a compiled C
program against fixture files. When the active file is C source, the `run`
command does the following, in order:

- It writes a start line to an output panel, clearing the panel first.
- It looks for test archives next to the source (`sample.tgz`, `tests.tgz`,
  `test-data.tgz`). Each one it finds is extracted into `<archive without
  extension>_tmp`, the test directories inside are tested, and the extracted
  tree is deleted.
- It looks for plain test directories next to the source (`CZE`,
  `sample/CZE`, `tests`, `test-data`) and tests each one.
- It writes "No test data found." when neither kind was found.
- Last, it writes an end line.

Testing a directory works like this:

- Its file names are filtered: a name is dropped if it contains `win` or
  `tmp`, or starts with a dot.
- The first four characters of each remaining name are a case ID. Each ID is
  tested once, in the order IDs first appear.
- Case `n` runs the program with `n_in.txt` as input and `n_tmp_out.txt` as
  output, then runs `diff n_out.txt n_tmp_out.txt`.
- The diff alone decides the verdict. A non-zero exit status of the program
  is only reported.
- The first failing case stops the rest of that directory.

The model is a set of pure functions over an abstract host (`Host.Env`):

- which paths exist;
- the file list of a directory;
- the program's exit status per case;
- the diff's outcome per case.

A run yields a sequence of `Events.Event`s. These are the panel lines, each
rendered exactly as the runner writes it, together with the effects on the
outside world: extraction, program runs, diffs and deletions. `Events.Panel`
replays the lines into the panel's text.

Modules:

- `Seqs`: filter, map, first-seen de-duplication, subsequences.
- `Text`: Python's `startswith`, `in`, slicing, `strip` and `%d`.
- `Paths`: POSIX `join`, `dirname`, `splitext`, and the runner's `getNoExtName`.
- `Events`: the event log and the panel.
- `Host`: the abstract host.
- `Discovery`: candidate directories and archives.
- `Fixtures`: file filter, case IDs, fixture names.
- `Cases`: `testFile`.
- `Directories`: `testDir`, both as a definition and as the source's loop.
- `Orchestrator`: `run` and `testArchive`.

Notes on the behaviour of `test.py`:

- Deleting an extracted archive is not guaranteed. There is no
  `try`/`finally` in `testArchive` (lines 86-102), so the deletion happens
  only when everything before it returns normally.
- A case has two outcomes only, passed or failed. A missing fixture or
  program shows up only as a non-zero exit status or a failing diff.
- Cases are formed from file-name prefixes alone (line 118); nothing checks
  that both `n_in.txt` and `n_out.txt` exist.

## Model

| member | source | states |
|---|---|---|
| Discovery.Discover | test.py:40-50 | the common core of `dirDiscovery` and `archiveDiscovery`: the paths found are exactly those candidates (base directory joined with each fixed name) that exist, in the order of the candidate list: a subsequence of the candidates |
| Discovery.ArchiveCandidateTarget | test.py:86-89 | each candidate archive next to an absolute base directory extracts to `<base>/<name without .tgz>_tmp` |
| Paths.Join | test.py:44 | an absolute second part replaces the first; otherwise one separator is inserted between them when the first is non-empty and does not end with one, and the parts are simply concatenated when it is empty or already ends with one |
| Paths.Dirname | test.py:43 | the result is a prefix of the path no longer than the part up to the last separator, dropping only separators, and it ends in a separator only when it consists of separators; it is empty exactly when the path has no separator, and it is that whole part when the part consists of separators only |
| Paths.Root | test.py:53 | splitext's root is a prefix of the path; an extension is cut exactly when the final path component holds a non-dot followed later by a dot, and then the root ends just before the last dot |
| Paths.Ext | test.py:53 | path == root + extension; the extension is empty or a dot followed by neither dots nor separators |
| Paths.NoExtName | test.py:52-53 | for an absolute source, the result is the source with its extension removed, and appending the extension gives the source back |
| Paths.NoExtNameDoublesRelativeDir | test.py:52-53 | for the relative path `a/b.c` the runner's join yields `a/a/b`, while splitext's root is `a/b` |
| Paths.ArchiveTarget | test.py:89 | the target is the archive path without its extension, followed by `_tmp` |
| Paths.ArchiveTargetOfName | test.py:89 | `<where>/<stem>.tgz` extracts to `<where>/<stem>_tmp` for an absolute `where` and a plain stem |
| Fixtures.TestFiles | test.py:112 | no kept name contains `win` or `tmp` or starts with a dot; every listed name without these is kept; kept names stay in listing order |
| Fixtures.CaseId | test.py:118 | the ID is the name's prefix of length four, or the whole name when it is shorter (its length is `min(4, len(name))`) |
| Fixtures.TestIds | test.py:109-124 | no case ID is tested twice |
| Fixtures.TestIdsMembers | test.py:115-124 | the tested IDs are exactly the IDs of the kept files |
| Fixtures.TestIdsFirstSeenOrder | test.py:109-124 | IDs are tested in the order of their first occurrence among the kept files |
| Fixtures.InName | test.py:136 | the input fixture of a four-character ID has that ID again |
| Fixtures.OutName | test.py:137 | the expected-output fixture of a four-character ID has that ID again |
| Fixtures.ScratchName | test.py:138 | the scratch output file is never itself taken for a test file |
| Fixtures.FixturePairRoundTrip | test.py:136-137 | a directory holding only `n_in.txt` and `n_out.txt` for a test-file ID `n` yields exactly the case `n` |
| Fixtures.NamePartsClean | test.py:112 | appending `_in.txt` or `_out.txt` to an ID that passes the file filter gives a name that passes it too |
| Cases.WarningLine | test.py:142-145 | at most one line, present exactly when the exit status is non-zero, and it reports that status for the case |
| Cases.VerdictLines | test.py:147-159 | first the comparison of `n_out.txt` with the scratch file; the success line exactly when diff reports no difference, the failure line and the diff's output exactly otherwise; a rule closes it |
| Cases.Verdict | test.py:147-159 | the verdict lines never run the program or report an exit status |
| Cases.TestFile | test.py:132-159 | a case passes exactly when diff reports no difference, and logs only case events |
| Cases.CaseLog | test.py:140-159 | a case logs the program run on its fixture paths, then the exit status exactly when it is non-zero, then the comparison, then either success and a rule, or failure, the diff output and a rule |
| Cases.CaseExecutesOnce | test.py:141-143 | each case runs the program exactly once, on `n_in.txt` into `n_tmp_out.txt` |
| Cases.ExitStatusOnlyLogged | test.py:142-155 | hosts that agree on the diff give the same verdict, and the same log apart from exit-status lines |
| Directories.RunCasesStopsAtFirstFailure | test.py:115-130 | `RunCases`, the case loop of `testDir`: the run tests the IDs up to and including the first failing one (all of them when none fails), and passes exactly when none fails |
| Directories.RunCasesVerdict | test.py:126-130 | a run passes exactly when every case passes; a failed run's last tested case failed and all before it passed |
| Directories.RunCasesSkipLine | test.py:126-128 | a failed run ends with the "Skipping" line; a passing run never logs it |
| Directories.RunCasesExecutions | test.py:115-143 | the program runs logged are exactly those of the tested IDs, in order |
| Directories.TestDir | test.py:104-106 | a directory's log starts with its header and a `~` rule |
| Directories.TestDirVerdict | test.py:104-130 | `testDir` is true exactly when all case IDs pass, including when there are none; on failure it tested up to the first failing ID and no later one |
| Directories.TestDirLoop | test.py:104-130 | the source's loop, with its seen-set and early return, computes exactly the declarative `TestDir` |
| Directories.CasesLoop | test.py:108-130 | the loop over the kept files computes exactly the run over their first-seen IDs |
| Text.Strip | test.py:153 | the result neither starts nor ends with white space, sits in the input right after the leading white space, and only white space follows it |
| Text.IntToString | test.py:145 | the numeral is non-empty and starts with a minus sign exactly for negative numbers |
| Text.IntToStringRoundTrip | test.py:145 | reading the `%d` numeral back gives the same integer |
| Text.Take | test.py:118 | `s[:n]` is a prefix of `s` of length `min(n, len(s))` |
| Text.Repeat | test.py:31-32 | `c * n` has length n and consists of c only |
| Orchestrator.TestDirEvents | test.py:104-130 | a directory's log holds only directory events, and its own header once |
| Orchestrator.TestDirsEvents | test.py:76-79 | testing several directories logs one header per directory, in order, whatever the verdicts |
| Orchestrator.TestDirsQuiet | test.py:104-159 | testing directories never extracts, deletes or writes a start, no-data or end line |
| Orchestrator.ArchiveLifecycle | test.py:86-102 | `testArchive`: the archive is announced, then extracted to its target, before any directory is tested; every candidate directory in the target is tested, in order; deleting the target is the last event; extraction and deletion each happen exactly once |
| Orchestrator.ArchiveEvents | test.py:86-102 | one archive extracts and deletes its own target once, and logs no framing line |
| Orchestrator.TestArchivesEvents | test.py:71-74 | the archives' targets are extracted and deleted in discovery order, each once |
| Orchestrator.RunFrame | test.py:64-84 | `run`: non-C files produce nothing; otherwise the run starts with the start line and ends with the end line, and logs "No test data found." exactly when no archive and no directory exists |
| Orchestrator.RunArchivesFirst | test.py:71-79 | some point of the log has all archive extractions and deletions before it, and before it exactly the directories found inside the extracted archives are tested; after it only the plain directories are tested, in discovery order, so no plain directory is tested before the archives are done |
| Orchestrator.TestArchivesHeaders | test.py:71-74 | testing the archives tests exactly the directories found inside their targets, archive by archive, each in discovery order |
| Orchestrator.RunPanel | test.py:20-29 | after a run the panel holds only that run's lines, from the start line to the end line |
| Orchestrator.RunWithoutTestData | test.py:64-84 | with nothing found, the run logs exactly the start, no-data and end lines, and the panel reads exactly those three lines |
| Events.PanelAppend | test.py:20-29 | lines without an erasing start line are appended to the panel's text in order |
| Discovery.DirDiscoveryCandidates | test.py:40-44 | `dirDiscovery` finds exactly the existing ones of `CZE`, `sample/CZE`, `tests`, `test-data` under the base directory, in that order |
| Discovery.ArchiveDiscoveryCandidates | test.py:46-50 | `archiveDiscovery` finds exactly the existing ones of `sample.tgz`, `tests.tgz`, `test-data.tgz` under the base directory, in that order |
| Orchestrator.TestDirsAppend | test.py:76-79 | testing a list of directories is testing its parts one after the other, so a failing directory never stops the next |
| Orchestrator.TestArchivesAppend | test.py:71-74 | testing a list of archives is testing its parts one after the other |
| Events.PanelErase | test.py:20-29 | the start line is written with erasing: whatever the panel held before, afterwards it holds only the start line and the lines after it |
| Events.RuleText | test.py:31-32 | `logHr` writes 80 copies of its fill character |

## Left out

- The Sublime Text interface is not modelled: creating and showing the panel, `is_visible`, `description`, and `_getWin`/`_getView`. Whether the active view is C source is the boolean input `isC` of `Run`. The source file's name is an input.
- The program under test, `diff`, `tarfile` and `shutil.rmtree` are oracles or effect events in `Host.Env` and `Events.Event`:
  - the exit status per case;
  - the diff's status and output per case;
  - extraction and deletion as events.

  Archive contents are not modelled. Whether an extracted directory exists is answered by the same existence oracle as any other path.
- Shell quoting of the commands is not modelled. A fixture path that contains `'` would break the source's command line; the model treats the commands as structured events.
- Exceptions are not modelled. This covers a failing extraction, `os.walk` on a path that is not a directory (the source then raises `IndexError` at line 108), and an unexpected exception.
- A program under test that never exits is not modelled. The source waits for it with no timeout (line 143), so such a run never writes its end line. The exit-status and diff oracles are total, so the model covers only runs in which every program run ends; `Orchestrator.RunFrame`'s end line holds for those runs.
- Because the source has no `try`/`finally`, an exception would skip deleting an extracted archive. The model covers only runs in which nothing raises.
- Decoding the diff's output as UTF-8 is not modelled. The output is a string oracle.
- `filter` and `map` are lazy in Python 3; the model evaluates them eagerly.
- The existence oracle is one function for the whole run. It answers each path as it stands when the source asks about it: an extracted tree exists while its archive is being tested. A tree whose existence changes between two queries of the same path is not modelled.
- The panel's start line keeps the source's spelling, "Testing strated.".
- Paths.NoExtName: states the result only for absolute sources, because the editor always supplies absolute file names. For relative names the source doubles the directory part, as `NoExtNameDoublesRelativeDir` shows.
- Paths.ArchiveTarget: relates the target to the archive's extension only for absolute archive paths, for the same reason.
- Discovery.ArchiveCandidateTarget: covers only absolute base directories that do not end in a separator. Absolute base directories follow from absolute file names. A source file in the root directory has the base directory `/`, which ends in a separator; that case is not covered.

=== FILE: cases.dfy ===
/** One test case: run the program with the case's input redirected from
    `n_in.txt` and its output to `n_tmp_out.txt`, then `diff` the expected
    output `n_out.txt` against it. Only the diff decides the verdict; a
    non-zero exit status of the program is reported and otherwise ignored. */
module Cases {
  import opened Seqs
  import opened Events
  import opened Host
  import opened Fixtures

  datatype CaseReport = CaseReport(passed: bool, log: seq<Event>)

  /** Case `id` of `dir` passes when `diff` finds expected and actual output the same. */
  predicate Passes(env: Env, dir: string, id: string) {
    env.diff(dir, id).status == 0
  }

  /** The events a single case, or a directory's run of cases, may produce. */
  predicate IsCaseEvent(e: Event) {
    e.Executed? || e.ExitStatus? || e.Compared? || e.CasePassed? || e.CaseFailed?
    || e.DiffText? || e.Rule?
  }

  /** The program run of case `id` in `dir`. */
  function Execution(exe: string, dir: string, id: string): Event {
    Executed(exe, InFile(dir, id), ScratchFile(dir, id))
  }

  /** The exit-status line, present exactly when the program's exit status is non-zero. */
  function Warning(env: Env, dir: string, id: string): (w: seq<Event>)
    ensures forall e :: e in w ==> e.ExitStatus?
  {
    var status := env.exitStatus(dir, id);
    if status != 0 then [ExitStatus(id, status)] else []
  }

  /** The comparison of expected with actual output and the verdict lines
      that follow it; a failure shows the diff's output. */
  function Verdict(env: Env, dir: string, id: string): (v: seq<Event>)
    ensures forall e :: e in v ==> IsCaseEvent(e) && !e.Executed? && !e.ExitStatus?
  {
    var outcome := env.diff(dir, id);
    [Compared(OutFile(dir, id), ScratchFile(dir, id))]
    + if outcome.status != 0 then [CaseFailed(id), DiffText(outcome.stdout), Rule('-')]
      else [CasePassed(id), Rule('-')]
  }

  /** At most one exit-status line, present exactly when the program's exit
      status is non-zero, and reporting that status for the case. */
  lemma WarningLine(env: Env, dir: string, id: string)
    ensures var w := Warning(env, dir, id);
            && |w| <= 1
            && (w != [] <==> env.exitStatus(dir, id) != 0)
            && (w != [] ==> w[0] == ExitStatus(id, env.exitStatus(dir, id)))
  {
  }

  /** The comparison of `n_out.txt` with the scratch file comes first; the
      success line appears exactly when the case passes, the failure line
      and the diff's output exactly when it fails; a rule closes the case. */
  lemma VerdictLines(env: Env, dir: string, id: string)
    ensures var v := Verdict(env, dir, id);
            && |v| >= 3
            && v[0] == Compared(OutFile(dir, id), ScratchFile(dir, id))
            && v[|v| - 1] == Rule('-')
            && (CasePassed(id) in v <==> Passes(env, dir, id))
            && (CaseFailed(id) in v <==> !Passes(env, dir, id))
            && (DiffText(env.diff(dir, id).stdout) in v <==> !Passes(env, dir, id))
  {
  }

  /** `testFile(dir, id)`: the verdict of one case and what it logs. The
      program is run first, reading `n_in.txt` and writing the scratch file;
      the exit status is reported if non-zero; then `n_out.txt` is compared
      with the scratch file, and the verdict is the diff's alone. */
  function TestFile(env: Env, exe: string, dir: string, id: string): (r: CaseReport)
    ensures r.passed <==> Passes(env, dir, id)
    ensures forall e :: e in r.log ==> IsCaseEvent(e)
  {
    var log := [Execution(exe, dir, id)] + Warning(env, dir, id) + Verdict(env, dir, id);
    CaseReport(env.diff(dir, id).status == 0, log)
  }

  /** What a case logs, in order: the program run on its fixture paths, the
      exit status exactly when it is non-zero, the comparison of expected
      with actual output, and then either the success line or the failure
      line with the diff's output; a rule closes the case. */
  lemma CaseLog(env: Env, exe: string, dir: string, id: string)
    ensures var log := TestFile(env, exe, dir, id).log;
            var status := env.exitStatus(dir, id);
            var k := if status != 0 then 2 else 1;
            && log[0] == Executed(exe, InFile(dir, id), ScratchFile(dir, id))
            && (status != 0 ==> log[1] == ExitStatus(id, status))
            && log[k] == Compared(OutFile(dir, id), ScratchFile(dir, id))
            && (Passes(env, dir, id) ==> log[k + 1..] == [CasePassed(id), Rule('-')])
            && (!Passes(env, dir, id) ==>
                  log[k + 1..] == [CaseFailed(id), DiffText(env.diff(dir, id).stdout), Rule('-')])
  {
    var log := TestFile(env, exe, dir, id).log;
    var k := if env.exitStatus(dir, id) != 0 then 2 else 1;
    assert log[k..] == Verdict(env, dir, id);
  }

  /** A case runs the program exactly once, on its own fixture paths. */
  lemma CaseExecutesOnce(env: Env, exe: string, dir: string, id: string)
    ensures Filter(IsExecution, TestFile(env, exe, dir, id).log) == [Execution(exe, dir, id)]
  {
    var rest := Warning(env, dir, id) + Verdict(env, dir, id);
    assert TestFile(env, exe, dir, id).log == [Execution(exe, dir, id)] + rest;
    FilterAppend(IsExecution, [Execution(exe, dir, id)], rest);
    FilterNone(IsExecution, rest);
    assert [Execution(exe, dir, id)][1..] == [];
  }

  predicate IsNotExitStatus(e: Event) {
    !e.ExitStatus?
  }

  /** The exit status never changes a verdict: two environments that agree on
      the diff of a case give the same verdict and the same log, apart from
      the exit-status line. */
  lemma ExitStatusOnlyLogged(env1: Env, env2: Env, exe: string, dir: string, id: string)
    requires env1.diff(dir, id) == env2.diff(dir, id)
    ensures TestFile(env1, exe, dir, id).passed == TestFile(env2, exe, dir, id).passed
    ensures Filter(IsNotExitStatus, TestFile(env1, exe, dir, id).log)
         == Filter(IsNotExitStatus, TestFile(env2, exe, dir, id).log)
  {
    var head := [Execution(exe, dir, id)];
    var tail := Verdict(env1, dir, id);
    assert tail == Verdict(env2, dir, id);
    WithoutWarning(env1, head, tail, dir, id);
    WithoutWarning(env2, head, tail, dir, id);
  }

  lemma WithoutWarning(env: Env, head: seq<Event>, tail: seq<Event>, dir: string, id: string)
    ensures Filter(IsNotExitStatus, head + Warning(env, dir, id) + tail)
         == Filter(IsNotExitStatus, head) + Filter(IsNotExitStatus, tail)
  {
    var w := Warning(env, dir, id);
    FilterAppend(IsNotExitStatus, head + w, tail);
    FilterAppend(IsNotExitStatus, head, w);
    assert Filter(IsNotExitStatus, w) == [] by {
      if w != [] {
        assert w == [w[0]] && !IsNotExitStatus(w[0]);
        assert w[1..] == [];
      }
    }
  }
}

=== FILE: directories.dfy ===
/** Testing one directory: its cases are run in first-seen ID order and the
    run stops at the first failing case. The directory passes exactly when
    every one of its cases passes, which includes having no cases at all. */
module Directories {
  import opened Seqs
  import opened Events
  import opened Host
  import opened Fixtures
  import opened Cases

  /** What testing a directory (or a run of its cases) returns and logs, and
      which case IDs it ran, in order. */
  datatype DirReport = DirReport(passed: bool, tested: seq<string>, log: seq<Event>)

  /** All of `ids` pass. */
  predicate AllPass(env: Env, dir: string, ids: seq<string>) {
    forall i :: 0 <= i < |ids| ==> Passes(env, dir, ids[i])
  }

  /** The index of the first failing case among `ids`, or `|ids|` when all pass. */
  function FirstFailure(env: Env, dir: string, ids: seq<string>): (k: nat)
    ensures k <= |ids|
    ensures forall i :: 0 <= i < k ==> Passes(env, dir, ids[i])
    ensures k < |ids| ==> !Passes(env, dir, ids[k])
    decreases |ids|
  {
    if ids == [] || !Passes(env, dir, ids[0]) then 0
    else 1 + FirstFailure(env, dir, ids[1..])
  }

  /** The cases `ids` of `dir`, run in order until one fails; a failure is
      followed by the "skipping" line. */
  function RunCases(env: Env, exe: string, dir: string, ids: seq<string>): DirReport
    decreases |ids|
  {
    if ids == [] then DirReport(true, [], [])
    else
      var c := TestFile(env, exe, dir, ids[0]);
      if !c.passed then
        DirReport(false, [ids[0]], c.log + [SkippingRest])
      else
        var rest := RunCases(env, exe, dir, ids[1..]);
        DirReport(rest.passed, [ids[0]] + rest.tested, c.log + rest.log)
  }

  /** A run of cases tests the IDs up to and including the first failing one,
      or all of them when none fails, and passes exactly when none fails. */
  lemma {:induction false} RunCasesStopsAtFirstFailure(env: Env, exe: string, dir: string, ids: seq<string>)
    ensures var r := RunCases(env, exe, dir, ids);
            var k := FirstFailure(env, dir, ids);
            && (r.passed <==> k == |ids|)
            && r.tested == (if k < |ids| then ids[..k + 1] else ids)
    decreases |ids|
  {
    if ids != [] && Passes(env, dir, ids[0]) {
      RunCasesStopsAtFirstFailure(env, exe, dir, ids[1..]);
      var k := FirstFailure(env, dir, ids[1..]);
      assert ids == [ids[0]] + ids[1..];
      if k < |ids[1..]| {
        assert ids[..k + 2] == [ids[0]] + ids[1..][..k + 1];
      }
    }
  }

  /** A run of cases passes exactly when every case passes; when it fails,
      every tested case but the last passed and the last failed, and the
      log ends with the "skipping" line, which a passing run never logs. */
  lemma RunCasesVerdict(env: Env, exe: string, dir: string, ids: seq<string>)
    ensures var r := RunCases(env, exe, dir, ids);
            && (r.passed <==> AllPass(env, dir, ids))
            && (r.passed ==> r.tested == ids)
            && (!r.passed ==> |r.tested| > 0 && !Passes(env, dir, r.tested[|r.tested| - 1])
                              && AllPass(env, dir, r.tested[..|r.tested| - 1]))
  {
    RunCasesStopsAtFirstFailure(env, exe, dir, ids);
    var k := FirstFailure(env, dir, ids);
    if k < |ids| {
      assert ids[..k + 1][k] == ids[k];
      assert forall i :: 0 <= i < k ==> ids[..k + 1][..k][i] == ids[i];
    }
  }

  /** The "skipping" line closes the log of a failed run and never appears in a passing one. */
  lemma {:induction false} RunCasesSkipLine(env: Env, exe: string, dir: string, ids: seq<string>)
    ensures var r := RunCases(env, exe, dir, ids);
            && (!r.passed ==> r.log != [] && r.log[|r.log| - 1] == SkippingRest)
            && (r.passed ==> SkippingRest !in r.log)
            && (forall e :: e in r.log ==> IsCaseEvent(e) || e.SkippingRest?)
    decreases |ids|
  {
    if ids != [] {
      var c := TestFile(env, exe, dir, ids[0]);
      if c.passed {
        RunCasesSkipLine(env, exe, dir, ids[1..]);
      }
    }
  }

  /** The program runs logged by a run of cases are exactly those of the IDs
      it tested, in order, each on that case's fixture and scratch paths. */
  lemma {:induction false} RunCasesExecutions(env: Env, exe: string, dir: string, ids: seq<string>)
    ensures Filter(IsExecution, RunCases(env, exe, dir, ids).log)
         == Map((id: string) => Execution(exe, dir, id), RunCases(env, exe, dir, ids).tested)
    decreases |ids|
  {
    var r := RunCases(env, exe, dir, ids);
    var f := (id: string) => Execution(exe, dir, id);
    if ids != [] {
      var c := TestFile(env, exe, dir, ids[0]);
      CaseExecutesOnce(env, exe, dir, ids[0]);
      if !c.passed {
        FilterAppend(IsExecution, c.log, [SkippingRest]);
        assert Filter(IsExecution, [SkippingRest]) == [] by {
          assert [SkippingRest][1..] == [];
        }
      } else {
        var rest := RunCases(env, exe, dir, ids[1..]);
        RunCasesExecutions(env, exe, dir, ids[1..]);
        FilterAppend(IsExecution, c.log, rest.log);
        MapAppend(f, [ids[0]], rest.tested);
      }
    }
  }

  /** The header a directory's test starts with. */
  function DirHeader(dir: string): Event {
    TestingDirectory(dir)
  }

  /** `testDir(dir)`: the directory's header and rule, then its case IDs,
      in first-seen order, run until the first failure. */
  function TestDir(env: Env, exe: string, dir: string): (r: DirReport)
    ensures |r.log| >= 2 && r.log[..2] == [DirHeader(dir), Rule('~')]
  {
    var cases := RunCases(env, exe, dir, TestIds(env.files(dir)));
    DirReport(cases.passed, cases.tested, [DirHeader(dir), Rule('~')] + cases.log)
  }

  /** `testDir` returns true exactly when every case ID of the listing passes,
      including when there is none; it tests the IDs up to and including the
      first failing one and no later ID. */
  lemma TestDirVerdict(env: Env, exe: string, dir: string)
    ensures var r := TestDir(env, exe, dir);
            var ids := TestIds(env.files(dir));
            var k := FirstFailure(env, dir, ids);
            && (r.passed <==> AllPass(env, dir, ids))
            && (r.passed ==> r.tested == ids)
            && (!r.passed ==> r.tested == ids[..k + 1] && k < |ids| && !Passes(env, dir, ids[k]))
            && (!r.passed ==> r.log[|r.log| - 1] == SkippingRest)
  {
    var ids := TestIds(env.files(dir));
    RunCasesStopsAtFirstFailure(env, exe, dir, ids);
    RunCasesVerdict(env, exe, dir, ids);
    RunCasesSkipLine(env, exe, dir, ids);
  }

  /** One step of first-seen de-duplication from position `i` on. */
  lemma DedupStep(ids: seq<string>, i: nat, seen: set<string>)
    requires i < |ids|
    ensures Dedup(ids[i..], seen) ==
              if ids[i] in seen then Dedup(ids[i + 1..], seen)
              else [ids[i]] + Dedup(ids[i + 1..], seen + {ids[i]})
  {
    assert ids[i..][0] == ids[i] && ids[i..][1..] == ids[i + 1..];
  }

  /** Running a case followed by more cases. */
  lemma RunCasesCons(env: Env, exe: string, dir: string, id: string, rest: seq<string>)
    ensures var c := TestFile(env, exe, dir, id);
            var r := RunCases(env, exe, dir, rest);
            RunCases(env, exe, dir, [id] + rest) ==
              if !c.passed then DirReport(false, [id], c.log + [SkippingRest])
              else DirReport(r.passed, [id] + r.tested, c.log + r.log)
  {
    assert ([id] + rest)[0] == id && ([id] + rest)[1..] == rest;
  }

  /** `testDir(dir)` as the source writes it: the header and rule, then one
      pass over the listed file names that skips excluded names and
      already-seen IDs, and returns at the first failing case. It computes
      exactly `TestDir`. */
  method TestDirLoop(env: Env, exe: string, dir: string) returns (r: DirReport)
    ensures r == TestDir(env, exe, dir)
  {
    r := CasesLoop(env, exe, dir, TestFiles(env.files(dir)), [DirHeader(dir), Rule('~')]);
  }

  /** The loop of `testDir` over the test files `files`, appending to `log`:
      it runs each new case ID in order and stops at the first failure,
      exactly as `RunCases` does on the first-seen IDs of `files`. */
  method CasesLoop(env: Env, exe: string, dir: string, files: seq<string>, log0: seq<Event>)
    returns (r: DirReport)
    ensures var k := RunCases(env, exe, dir, Dedup(Map(CaseId, files), {}));
            r == DirReport(k.passed, k.tested, log0 + k.log)
  {
    ghost var ids := Map(CaseId, files);
    ghost var goal := RunCases(env, exe, dir, Dedup(ids, {}));
    assert ids[0..] == ids;
    var log := log0;
    var alreadyTested: set<string> := {};
    var tested: seq<string> := [];
    var i := 0;
    while i < |files|
      invariant 0 <= i <= |files|
      invariant goal.passed == RunCases(env, exe, dir, Dedup(ids[i..], alreadyTested)).passed
      invariant goal.tested == tested + RunCases(env, exe, dir, Dedup(ids[i..], alreadyTested)).tested
      invariant log0 + goal.log == log + RunCases(env, exe, dir, Dedup(ids[i..], alreadyTested)).log
    {
      var num := CaseId(files[i]);
      DedupStep(ids, i, alreadyTested);
      if num in alreadyTested {
        i := i + 1;
        continue;
      }
      ghost var next := Dedup(ids[i + 1..], alreadyTested + {num});
      RunCasesCons(env, exe, dir, num, next);
      alreadyTested := alreadyTested + {num};
      var c := TestFile(env, exe, dir, num);
      if !c.passed {
        return DirReport(false, tested + [num], log + (c.log + [SkippingRest]));
      }
      ghost var k := RunCases(env, exe, dir, next);
      AppendAssoc(tested, [num], k.tested);
      AppendAssoc(log, c.log, k.log);
      tested := tested + [num];
      log := log + c.log;
      i := i + 1;
    }
    assert ids[i..] == [];
    assert tested + [] == tested && log + [] == log;
    return DirReport(true, tested, log);
  }
}

=== FILE: discovery.dfy ===
/** Finding test data next to the source file: a fixed, ordered list of
    candidate directory names and of candidate archive names, each joined to
    a base directory and kept when it exists. */
module Discovery {
  import opened Seqs
  import opened Paths
  import opened Host

  /** The candidate test directories, in the order they are tried. */
  const TestDirNames: seq<string> := ["CZE", "sample/CZE", "tests", "test-data"]

  /** The candidate test archives, in the order they are tried. */
  const ArchiveNames: seq<string> := ["sample.tgz", "tests.tgz", "test-data.tgz"]

  /** Every candidate name joined to `where`, in candidate order. */
  function Candidates(where: string, names: seq<string>): (r: seq<string>)
    ensures |r| == |names|
    ensures forall i :: 0 <= i < |names| ==> r[i] == Join(where, names[i])
  {
    Map((n: string) => Join(where, n), names)
  }

  /** The existing candidates, in candidate order: exactly the joined
      candidate paths that exist, and nothing out of order. */
  function Discover(env: Env, where: string, names: seq<string>): (r: seq<string>)
    ensures IsSubseq(r, Candidates(where, names))
    ensures forall p :: p in r ==> p in Candidates(where, names) && env.pathExists(p)
    ensures forall p :: p in Candidates(where, names) && env.pathExists(p) ==> p in r
  {
    FilterIsSubseq(env.pathExists, Candidates(where, names));
    FilterMembers(env.pathExists, Candidates(where, names));
    Filter(env.pathExists, Candidates(where, names))
  }

  /** `dirDiscovery(where)`: the existing test directories under `where`. */
  function DirDiscovery(env: Env, where: string): seq<string> {
    Discover(env, where, TestDirNames)
  }

  /** `archiveDiscovery(where)`: the existing test archives under `where`. */
  function ArchiveDiscovery(env: Env, where: string): seq<string> {
    Discover(env, where, ArchiveNames)
  }

  /** Joining a name that does not start with a separator. */
  lemma JoinRelative(where: string, name: string)
    requires name != [] && name[0] != '/'
    ensures Join(where, name)
         == where + (if where != [] && where[|where| - 1] != '/' then "/" else "") + name
  {
    assert !Text.StartsWith(name, "/") by {
      assert name[..1][0] == name[0];
    }
  }

  /** The directories tried are `CZE`, `sample/CZE`, `tests` and `test-data`
      under `where`, in that order, joined with a separator unless `where`
      is empty or ends in one; those that exist are found, in that order. */
  lemma DirDiscoveryCandidates(env: Env, where: string)
    ensures var c := if where != [] && where[|where| - 1] != '/' then "/" else "";
            DirDiscovery(env, where) == Filter(env.pathExists,
              [where + c + "CZE", where + c + "sample/CZE", where + c + "tests", where + c + "test-data"])
  {
    var c := if where != [] && where[|where| - 1] != '/' then "/" else "";
    var cs := Candidates(where, TestDirNames);
    JoinRelative(where, "CZE");
    JoinRelative(where, "sample/CZE");
    JoinRelative(where, "tests");
    JoinRelative(where, "test-data");
    assert cs == [where + c + "CZE", where + c + "sample/CZE", where + c + "tests", where + c + "test-data"];
  }

  /** The archives tried are `sample.tgz`, `tests.tgz` and `test-data.tgz`
      under `where`, in that order; those that exist are found, in that order. */
  lemma ArchiveDiscoveryCandidates(env: Env, where: string)
    ensures var c := if where != [] && where[|where| - 1] != '/' then "/" else "";
            ArchiveDiscovery(env, where) == Filter(env.pathExists,
              [where + c + "sample.tgz", where + c + "tests.tgz", where + c + "test-data.tgz"])
  {
    var c := if where != [] && where[|where| - 1] != '/' then "/" else "";
    var cs := Candidates(where, ArchiveNames);
    JoinRelative(where, "sample.tgz");
    JoinRelative(where, "tests.tgz");
    JoinRelative(where, "test-data.tgz");
    assert cs == [where + c + "sample.tgz", where + c + "tests.tgz", where + c + "test-data.tgz"];
  }

  /** A candidate archive `<stem>.tgz` in an absolute directory `where` (one
      that does not end in a separator) extracts to `where/<stem>_tmp`. */
  lemma ArchiveCandidateTarget(where: string, i: nat)
    requires Text.StartsWith(where, "/") && where[|where| - 1] != '/'
    requires i < |ArchiveNames|
    ensures ArchiveTarget(Join(where, ArchiveNames[i]))
              == where + "/" + ArchiveNames[i][..|ArchiveNames[i]| - 4] + "_tmp"
  {
    var name := ArchiveNames[i];
    var stem := name[..|name| - 4];
    assert name == stem + ".tgz";
    assert PlainStem(stem);
    ArchiveTargetOfName(where, stem);
  }
}

=== FILE: events.dfy ===
/** What a test run leaves behind, in order: the lines it writes to the
    output panel and the effects it has on the outside world (unpacking an
    archive, running the program, running `diff`, deleting a tree).
    `Render` gives each panel line the exact text the runner writes. */
module Events {
  import opened Seqs
  import opened Text

  datatype Event =
      // Panel lines.
    | Started                                   // written with erase: the panel is cleared first
    | NoTestData
    | Ended
    | TestingArchive(archive: string)
    | Extracting(archive: string, target: string)
    | CleaningUp
    | TestingDirectory(dir: string)
    | Rule(fill: char)                          // a horizontal rule of 80 `fill` characters
    | ExitStatus(id: string, status: int)
    | CaseFailed(id: string)
    | DiffText(text: string)                    // diff's output, shown without surrounding white space
    | CasePassed(id: string)
    | SkippingRest
      // Effects outside the panel.
    | Unpacked(archive: string, target: string) // the whole archive extracted under `target`
    | Executed(exe: string, input: string, output: string)  // `'exe' < 'input' > 'output'`
    | Compared(expected: string, actual: string)            // `diff 'expected' 'actual'`
    | Removed(target: string)                   // the tree under `target` deleted

  /** Panel lines carry text; effects do not. */
  predicate IsLine(e: Event) {
    !(e.Unpacked? || e.Executed? || e.Compared? || e.Removed?)
  }

  /** The text of a panel line, exactly as the runner formats it. */
  function Render(e: Event): string
    requires IsLine(e)
  {
    match e
    case Started => "Testing strated."
    case NoTestData => "No test data found."
    case Ended => "Testing ended."
    case TestingArchive(a) => "Testing archive: " + a
    case Extracting(a, t) => "Extracting archive " + a + " to " + t
    case CleaningUp => "Cleaning up."
    case TestingDirectory(d) => "Testing directory: " + d
    case Rule(c) => Repeat(c, 80)
    case ExitStatus(id, s) => "Test " + id + " has exit status: " + IntToString(s)
    case CaseFailed(id) => "Error: Test " + id + " failed."
    case DiffText(t) => Strip(t)
    case CasePassed(id) => "Success: Test " + id + " passed."
    case SkippingRest => "Skipping next tests in the same directory (if any)."
  }

  /** The panel's text after the events `t`, starting from a panel holding
      `before`: every line is written followed by a newline, and the start
      line clears the panel before it is written. */
  function Panel(before: string, t: seq<Event>): string
    decreases |t|
  {
    if t == [] then before
    else
      var p := Panel(before, t[..|t| - 1]);
      var e := t[|t| - 1];
      if !IsLine(e) then p
      else if e.Started? then Render(e) + "\n"
      else p + Render(e) + "\n"
  }

  /** The start line erases the panel: whatever was written before it, the
      panel holds only the start line and the lines that follow it. */
  lemma {:induction false} PanelErase(before: string, s: seq<Event>, u: seq<Event>)
    requires forall e :: e in u ==> !e.Started?
    ensures Panel(before, s + [Started] + u) == Panel("", [Started] + u)
    decreases |u|
  {
    if u == [] {
      assert s + [Started] + u == s + [Started];
      assert [Started] + u == [Started];
      assert [Started][..0] == [];
    } else {
      var v := u[..|u| - 1];
      PanelErase(before, s, v);
      assert (s + [Started] + u)[..|s| + 1 + |v|] == s + [Started] + v;
      assert ([Started] + u)[..1 + |v|] == [Started] + v;
    }
  }

  /** Lines appended after a log that contain no start line are appended to
      the panel unchanged. */
  lemma {:induction false} PanelAppend(before: string, s: seq<Event>, u: seq<Event>)
    requires forall e :: e in u ==> !e.Started?
    ensures Panel(before, s + u) == Panel(before, s) + Panel("", u)
    decreases |u|
  {
    if u == [] {
      assert s + u == s;
    } else {
      var init := u[..|u| - 1];
      var e := u[|u| - 1];
      assert (s + u)[..|s + u| - 1] == s + init;
      assert (s + u)[|s + u| - 1] == e;
      assert forall x :: x in init ==> x in u;
      PanelAppend(before, s, init);
      if IsLine(e) {
        var a, b := Panel(before, s), Panel("", init);
        assert Panel(before, s + u) == (a + b) + Render(e) + "\n";
        assert Panel("", u) == b + Render(e) + "\n";
        AppendAssoc(b, Render(e), "\n");
        AppendAssoc(a + b, Render(e), "\n");
        AppendAssoc(a, b, Render(e) + "\n");
      }
    }
  }

  /** A rule is 80 copies of its fill character. */
  lemma RuleText(c: char)
    ensures |Render(Rule(c))| == 80
    ensures forall i :: 0 <= i < 80 ==> Render(Rule(c))[i] == c
  {
  }

  // Named selectors, used with `Seqs.Filter` to pick events of one kind.
  predicate IsUnpack(e: Event) { e.Unpacked? }
  predicate IsRemoval(e: Event) { e.Removed? }
  predicate IsDirHeader(e: Event) { e.TestingDirectory? }
  predicate IsExecution(e: Event) { e.Executed? }
  predicate IsRunFrame(e: Event) { e.Started? || e.NoTestData? || e.Ended? }
}

=== FILE: fixtures.dfy ===
/** Pairing fixture files into test cases. A directory's file names are
    filtered, each remaining name's first four characters are its case ID,
    and every ID is tested once, in the order IDs first appear. A case `n`
    reads `n_in.txt`, expects `n_out.txt` and writes `n_tmp_out.txt`. */
module Fixtures {
  import opened Text
  import opened Seqs
  import opened Paths

  /** A listed file takes part in testing unless its name contains `win`
      or `tmp` or starts with a dot. */
  predicate IsTestFile(name: string) {
    !(Contains(name, "win") || Contains(name, "tmp") || StartsWith(name, "."))
  }

  /** The listed names that take part in testing, in listing order. */
  function TestFiles(names: seq<string>): (r: seq<string>)
    ensures forall f :: f in r ==> !Contains(f, "win") && !Contains(f, "tmp") && !StartsWith(f, ".")
    ensures forall f :: f in names && IsTestFile(f) ==> f in r
    ensures IsSubseq(r, names)
  {
    FilterIsSubseq(IsTestFile, names);
    FilterMembers(IsTestFile, names);
    Filter(IsTestFile, names)
  }

  /** The case ID of a file: its first four characters (`f[:4]`). */
  function CaseId(name: string): (id: string)
    ensures StartsWith(name, id)
    ensures |id| == if |name| < 4 then |name| else 4
  {
    Take(name, 4)
  }

  /** The case IDs of a listing: each test file's ID, the first time it is seen. */
  function TestIds(names: seq<string>): (ids: seq<string>)
    ensures NoDups(ids)
  {
    Dedup(Map(CaseId, TestFiles(names)), {})
  }

  /** The case IDs of a listing are exactly the IDs of its test files. */
  lemma TestIdsMembers(names: seq<string>)
    ensures forall id :: id in TestIds(names) ==> exists f :: f in TestFiles(names) && CaseId(f) == id
    ensures forall f :: f in TestFiles(names) ==> CaseId(f) in TestIds(names)
  {
    var files := TestFiles(names);
    var all := Map(CaseId, files);
    forall id | id in TestIds(names) ensures exists f :: f in files && CaseId(f) == id {
      var i :| 0 <= i < |all| && all[i] == id;
      assert files[i] in files;
    }
    forall f | f in files ensures CaseId(f) in TestIds(names) {
      var i :| 0 <= i < |files| && files[i] == f;
      assert all[i] == CaseId(f);
    }
  }

  /** IDs are tested in the order each first appears among the test files' IDs. */
  lemma TestIdsFirstSeenOrder(names: seq<string>)
    ensures forall i, j :: 0 <= i < j < |TestIds(names)| ==>
              IndexOf(Map(CaseId, TestFiles(names)), TestIds(names)[i])
              < IndexOf(Map(CaseId, TestFiles(names)), TestIds(names)[j])
    ensures IsSubseq(TestIds(names), Map(CaseId, TestFiles(names)))
  {
    DedupFirstSeenOrder(Map(CaseId, TestFiles(names)), {});
    DedupIsSubseq(Map(CaseId, TestFiles(names)), {});
  }

  /** The input fixture of case `id`; its own case ID is `id` again when `id` has four characters. */
  function InName(id: string): (name: string)
    ensures |id| == 4 ==> CaseId(name) == id
  {
    id + "_in.txt"
  }

  /** The expected-output fixture of case `id`; its own case ID is `id` again when `id` has four characters. */
  function OutName(id: string): (name: string)
    ensures |id| == 4 ==> CaseId(name) == id
  {
    id + "_out.txt"
  }

  /** The scratch file the program's output is written to. Its name
      contains `tmp`, so it is never taken for a test file. */
  function ScratchName(id: string): (name: string)
    ensures !IsTestFile(name)
  {
    assert Contains("_tmp_out.txt", "tmp") by {
      assert "_tmp_out.txt"[1..] == "tmp_out.txt";
      assert StartsWith("tmp_out.txt", "tmp");
    }
    ContainsAfterPrefix(id, "_tmp_out.txt", "tmp");
    id + "_tmp_out.txt"
  }

  function InFile(dir: string, id: string): string {
    Join(dir, InName(id))
  }

  function OutFile(dir: string, id: string): string {
    Join(dir, OutName(id))
  }

  function ScratchFile(dir: string, id: string): string {
    Join(dir, ScratchName(id))
  }

  /** The fixture pair of case `id` are themselves test files when `id` is a
      test-file ID, and both lead back to `id`: the ID a listing yields for
      `n_in.txt` and `n_out.txt` is `n`. */
  lemma {:induction false} FixturePairRoundTrip(id: string)
    requires |id| == 4 && IsTestFile(id)
    ensures TestIds([InName(id), OutName(id)]) == [id]
  {
    var names := [InName(id), OutName(id)];
    assert IsTestFile(InName(id)) by { NamePartsClean(id, "_in.txt"); }
    assert IsTestFile(OutName(id)) by { NamePartsClean(id, "_out.txt"); }
    assert TestFiles(names) == names;
    assert Map(CaseId, names) == [id, id];
    var none: set<string> := {};
    assert Dedup([id, id], none) == [id] by {
      assert [id, id][1..] == [id];
      assert none + {id} == {id};
      assert Dedup([id, id], none) == [id] + Dedup([id], {id});
      assert [id][1..] == [];
      assert Dedup([id], {id}) == Dedup([], {id}) == [];
    }
  }

  /** Gluing a test-file ID to a fixture suffix keeps it a test file: the
      suffix starts with `_`, which no forbidden word contains, so no
      forbidden word can straddle the seam. */
  lemma NamePartsClean(id: string, suffix: string)
    requires |id| == 4 && IsTestFile(id)
    requires suffix == "_in.txt" || suffix == "_out.txt"
    ensures IsTestFile(id + suffix)
  {
    var name := id + suffix;
    assert !StartsWith(name, ".") by {
      assert name[..1] == id[..1];
    }
    MissingCharNotContained(suffix, "win", 'w');
    MissingCharNotContained(suffix, "tmp", 'm');
    if Contains(name, "win") {
      ContainsAcrossUnderscore(id, suffix, "win");
    }
    if Contains(name, "tmp") {
      ContainsAcrossUnderscore(id, suffix, "tmp");
    }
  }
}

=== FILE: host.dfy ===
/** Everything the runner learns from outside itself, as given functions:
    the file system (existence of a path, the files directly inside a
    directory), the exit status of running the program on one test case,
    and the outcome of `diff` on that case's expected and actual output.
    The file-system answers are the ones in force when the runner asks,
    so an extracted archive's tree is visible while that archive is being
    tested. */
module Host {

  /** The result of `diff expected actual`: its exit status (0 when the files
      are the same) and the text it printed on standard output. */
  datatype DiffOutcome = DiffOutcome(status: int, stdout: string)

  datatype Env = Env(
    pathExists: string -> bool,                // `os.path.exists(path)`
    files: string -> seq<string>,           // the file names `os.walk(dir)` lists first, in its order
    exitStatus: (string, string) -> int,    // exit status of the program on case (dir, id)
    diff: (string, string) -> DiffOutcome)  // `diff` of case (dir, id)
}

=== FILE: orchestrator.dfy ===
/** The top level: `run` tests every existing candidate archive, then every
    existing candidate directory, next to the source file, and frames the
    whole run with a start line (which clears the panel) and an end line.
    `testArchive` extracts an archive next to itself, tests the candidate
    directories inside the extracted tree and deletes that tree. */
module Orchestrator {
  import opened Seqs
  import opened Paths
  import opened Events
  import opened Host
  import opened Discovery
  import opened Fixtures
  import opened Cases
  import opened Directories

  /** Every directory of `dirs` tested in turn; a failing directory does not
      stop the next one (the return value of `testDir` is ignored). */
  function TestDirs(env: Env, exe: string, dirs: seq<string>): seq<Event>
    decreases |dirs|
  {
    if dirs == [] then [] else TestDir(env, exe, dirs[0]).log + TestDirs(env, exe, dirs[1..])
  }

  /** `testArchive(archive)`: announce it, extract it to its target, test the
      candidate directories found in the target, then delete the target. */
  function TestArchive(env: Env, exe: string, archive: string): seq<Event> {
    var target := ArchiveTarget(archive);
    [TestingArchive(archive), Extracting(archive, target), Unpacked(archive, target)]
    + TestDirs(env, exe, DirDiscovery(env, target))
    + [CleaningUp, Removed(target)]
  }

  /** Every archive of `archives` tested in turn. */
  function TestArchives(env: Env, exe: string, archives: seq<string>): seq<Event>
    decreases |archives|
  {
    if archives == [] then []
    else TestArchive(env, exe, archives[0]) + TestArchives(env, exe, archives[1..])
  }

  /** The candidate directories found inside the targets of `archives`, in
      the order the archives and their directories are tested. */
  function ArchiveDirs(env: Env, archives: seq<string>): seq<string>
    decreases |archives|
  {
    if archives == [] then []
    else DirDiscovery(env, ArchiveTarget(archives[0])) + ArchiveDirs(env, archives[1..])
  }

  /** `run()`: nothing at all unless the active file is C source (`isC`, the
      editor's syntax check); otherwise the run's frame around all archives
      and then all directories found next to the source. The base directory
      is the source's directory and the program under test is the source
      path without its extension. */
  function Run(isC: bool, source: string, env: Env): seq<Event> {
    if !isC then []
    else
      var where := Dirname(source);
      var exe := NoExtName(source);
      var archives := ArchiveDiscovery(env, where);
      var dirs := DirDiscovery(env, where);
      Frame(TestArchives(env, exe, archives), TestDirs(env, exe, dirs), archives == [] && dirs == [])
  }

  /** The start line, the archives' log, the directories' log, the no-data
      line when `none` holds, and the end line. */
  function Frame(archiveLog: seq<Event>, dirLog: seq<Event>, none: bool): seq<Event> {
    [Started] + Body(archiveLog, dirLog, none) + [Ended]
  }

  /** What a run logs between its start and end lines. */
  function Body(archiveLog: seq<Event>, dirLog: seq<Event>, none: bool): seq<Event> {
    archiveLog + dirLog + NoDataNote(none)
  }

  function NoDataNote(none: bool): seq<Event> {
    if none then [NoTestData] else []
  }

  // ---------------------------------------------------------------------
  // The shape of each phase's log, stated over logs of that shape.

  /** The events testing a directory can produce. */
  predicate IsDirEvent(e: Event) {
    e.TestingDirectory? || IsCaseEvent(e) || e.SkippingRest?
  }

  /** The extraction of an archive to its target. */
  function UnpackOf(archive: string): Event {
    Unpacked(archive, ArchiveTarget(archive))
  }

  /** The deletion of an archive's target. */
  function RemovalOf(archive: string): Event {
    Removed(ArchiveTarget(archive))
  }

  /** Directory events are never extractions, deletions or framing lines. */
  lemma DirEventsQuiet(t: seq<Event>)
    requires forall e :: e in t ==> IsDirEvent(e)
    ensures Filter(IsUnpack, t) == []
    ensures Filter(IsRemoval, t) == []
    ensures Filter(IsRunFrame, t) == []
  {
    FilterNone(IsUnpack, t);
    FilterNone(IsRemoval, t);
    FilterNone(IsRunFrame, t);
  }

  /** A directory's header and rule followed by the log of its cases holds
      only directory events, and one header. */
  lemma DirLogShape(dir: string, caseLog: seq<Event>)
    requires forall e :: e in caseLog ==> IsCaseEvent(e) || e.SkippingRest?
    ensures forall e :: e in [DirHeader(dir), Rule('~')] + caseLog ==> IsDirEvent(e)
    ensures Filter(IsDirHeader, [DirHeader(dir), Rule('~')] + caseLog) == [DirHeader(dir)]
  {
    FilterAppend(IsDirHeader, [DirHeader(dir), Rule('~')], caseLog);
    FilterNone(IsDirHeader, caseLog);
    FilterPair(IsDirHeader, DirHeader(dir), Rule('~'));
  }

  /** One directory's log followed by the logs of further directories. */
  lemma DirLogsCons(first: seq<Event>, rest: seq<Event>, dir: string, dirs: seq<string>)
    requires forall e :: e in first ==> IsDirEvent(e)
    requires Filter(IsDirHeader, first) == [DirHeader(dir)]
    requires forall e :: e in rest ==> IsDirEvent(e)
    requires Filter(IsDirHeader, rest) == Map(DirHeader, dirs)
    ensures forall e :: e in first + rest ==> IsDirEvent(e)
    ensures Filter(IsDirHeader, first + rest) == Map(DirHeader, [dir] + dirs)
  {
    FilterAppend(IsDirHeader, first, rest);
    MapAppend(DirHeader, [dir], dirs);
    assert Map(DirHeader, [dir]) == [DirHeader(dir)];
  }

  /** An archive's opening lines, extraction, directories' log, closing line
      and deletion: extracted third, deleted last, each exactly once, and
      the directories' headers in order. */
  lemma ArchiveLogShape(archive: string, target: string, body: seq<Event>, dirs: seq<string>)
    requires forall e :: e in body ==> IsDirEvent(e)
    requires Filter(IsDirHeader, body) == Map(DirHeader, dirs)
    ensures var t := [TestingArchive(archive), Extracting(archive, target), Unpacked(archive, target)]
                     + body + [CleaningUp, Removed(target)];
            && t[..3] == [TestingArchive(archive), Extracting(archive, target), Unpacked(archive, target)]
            && t[|t| - 2] == CleaningUp
            && t[|t| - 1] == Removed(target)
            && Filter(IsDirHeader, t) == Map(DirHeader, dirs)
            && Filter(IsUnpack, t) == [Unpacked(archive, target)]
            && Filter(IsRemoval, t) == [Removed(target)]
            && Filter(IsRunFrame, t) == []
  {
    var h0, h1, h2 := TestingArchive(archive), Extracting(archive, target), Unpacked(archive, target);
    var c, r := CleaningUp, Removed(target);
    ArchiveLogEnds([h0, h1, h2], body, c, r);
    DirEventsQuiet(body);
    ArchiveLogFilter(IsDirHeader, h0, h1, h2, body, c, r);
    ArchiveLogFilter(IsUnpack, h0, h1, h2, body, c, r);
    ArchiveLogFilter(IsRemoval, h0, h1, h2, body, c, r);
    ArchiveLogFilter(IsRunFrame, h0, h1, h2, body, c, r);
  }

  /** An archive's log keeps its opening lines first and its closing lines last. */
  lemma ArchiveLogEnds(opening: seq<Event>, body: seq<Event>, c: Event, r: Event)
    requires |opening| == 3
    ensures var t := opening + body + [c, r];
            t[..3] == opening && t[|t| - 2] == c && t[|t| - 1] == r
  {
    var t := opening + body + [c, r];
    assert t[..3] == opening;
  }

  /** Filtering the log of an archive: its three opening and two closing
      events around the log of its directories. */
  lemma ArchiveLogFilter(p: Event -> bool, h0: Event, h1: Event, h2: Event, body: seq<Event>, c: Event, r: Event)
    ensures Filter(p, [h0, h1, h2] + body + [c, r])
         == Keep(p, h0) + Keep(p, h1) + Keep(p, h2) + Filter(p, body) + (Keep(p, c) + Keep(p, r))
  {
    FilterAppend(p, [h0, h1, h2] + body, [c, r]);
    FilterAppend(p, [h0, h1, h2], body);
    FilterTriple(p, h0, h1, h2);
    FilterPair(p, c, r);
  }

  /** One archive's log followed by the logs of further archives. */
  lemma ArchiveLogsCons(first: seq<Event>, rest: seq<Event>, archive: string, archives: seq<string>)
    requires Filter(IsUnpack, first) == [UnpackOf(archive)]
    requires Filter(IsRemoval, first) == [RemovalOf(archive)]
    requires Filter(IsRunFrame, first) == []
    requires Filter(IsUnpack, rest) == Map(UnpackOf, archives)
    requires Filter(IsRemoval, rest) == Map(RemovalOf, archives)
    requires Filter(IsRunFrame, rest) == []
    ensures Filter(IsUnpack, first + rest) == Map(UnpackOf, [archive] + archives)
    ensures Filter(IsRemoval, first + rest) == Map(RemovalOf, [archive] + archives)
    ensures Filter(IsRunFrame, first + rest) == []
  {
    FilterAppend(IsUnpack, first, rest);
    FilterAppend(IsRemoval, first, rest);
    FilterAppend(IsRunFrame, first, rest);
    MapAppend(UnpackOf, [archive], archives);
    MapAppend(RemovalOf, [archive], archives);
    assert Map(UnpackOf, [archive]) == [UnpackOf(archive)];
    assert Map(RemovalOf, [archive]) == [RemovalOf(archive)];
  }

  /** A log that filters to nothing under `IsRunFrame` holds no start line. */
  lemma NoFrameNoStart(t: seq<Event>)
    requires Filter(IsRunFrame, t) == []
    ensures forall e :: e in t ==> !e.Started?
  {
    FilterMembers(IsRunFrame, t);
  }

  /** The framing lines of a run's log, when its archive and directory logs
      hold none: the start line first, the end line last, and the no-data
      line in between exactly when `none` holds. */
  lemma FrameLines(a: seq<Event>, d: seq<Event>, none: bool)
    requires Filter(IsRunFrame, a) == [] && Filter(IsRunFrame, d) == []
    ensures var t := Frame(a, d, none);
            && |t| >= 2 && t[0] == Started && t[|t| - 1] == Ended
            && t[1..|t| - 1] == Body(a, d, none)
            && Filter(IsRunFrame, t) == [Started] + NoDataNote(none) + [Ended]
  {
    var m := Body(a, d, none);
    var t := Frame(a, d, none);
    assert t[1..|t| - 1] == m;
    BodyFrameLines(a, d, none);
    FilterAppend(IsRunFrame, [Started] + m, [Ended]);
    FilterCons(IsRunFrame, Started, m);
    FilterSingle(IsRunFrame, Ended);
  }

  /** Between its start and end lines, a run's only framing line is the
      no-data line, when `none` holds. */
  lemma BodyFrameLines(a: seq<Event>, d: seq<Event>, none: bool)
    requires Filter(IsRunFrame, a) == [] && Filter(IsRunFrame, d) == []
    ensures Filter(IsRunFrame, Body(a, d, none)) == NoDataNote(none)
  {
    FilterAppend(IsRunFrame, a + d, NoDataNote(none));
    FilterAppend(IsRunFrame, a, d);
    if none {
      FilterSingle(IsRunFrame, NoTestData);
    }
  }

  /** The no-data line appears in a run's log exactly when `none` holds. */
  lemma FrameNoData(a: seq<Event>, d: seq<Event>, none: bool)
    requires Filter(IsRunFrame, a) == [] && Filter(IsRunFrame, d) == []
    ensures NoTestData in Frame(a, d, none) <==> none
  {
    var t := Frame(a, d, none);
    FrameLines(a, d, none);
    FilterMembers(IsRunFrame, t);
    if none {
      assert Filter(IsRunFrame, t)[1] == NoTestData;
    } else if NoTestData in t {
      assert false;
    }
  }

  /** The lines closing a run are only framing lines. */
  lemma ClosingLinesFilter(p: Event -> bool, none: bool)
    requires !p(NoTestData) && !p(Ended)
    ensures Filter(p, NoDataNote(none) + [Ended]) == []
  {
    FilterAppend(p, NoDataNote(none), [Ended]);
    FilterSingle(p, Ended);
    if none {
      FilterSingle(p, NoTestData);
    }
  }

  /** Archive work before directory work: up to the end of the archives'
      log every archive has been extracted and deleted, in order. */
  lemma FrameOrderBefore(a: seq<Event>, d: seq<Event>, none: bool, archives: seq<string>)
    requires Filter(IsUnpack, a) == Map(UnpackOf, archives)
    requires Filter(IsRemoval, a) == Map(RemovalOf, archives)
    ensures var t := Frame(a, d, none);
            && 1 + |a| <= |t|
            && Filter(IsUnpack, t[..1 + |a|]) == Map(UnpackOf, archives)
            && Filter(IsRemoval, t[..1 + |a|]) == Map(RemovalOf, archives)
  {
    var t := Frame(a, d, none);
    assert t[..1 + |a|] == [Started] + a;
    FilterCons(IsUnpack, Started, a);
    FilterCons(IsRemoval, Started, a);
  }

  /** The directory headers a frame logs before its directories' part are
      exactly those of its archives' part. */
  lemma FrameHeadersBefore(a: seq<Event>, d: seq<Event>, none: bool, archDirs: seq<string>)
    requires Filter(IsDirHeader, a) == Map(DirHeader, archDirs)
    ensures var t := Frame(a, d, none);
            && 1 + |a| <= |t|
            && Filter(IsDirHeader, t[..1 + |a|]) == Map(DirHeader, archDirs)
  {
    var t := Frame(a, d, none);
    assert t[..1 + |a|] == [Started] + a;
    FilterCons(IsDirHeader, Started, a);
  }

  /** After the archives' log nothing is extracted or deleted and only the
      directories are tested, in order. */
  lemma FrameOrderAfter(a: seq<Event>, d: seq<Event>, none: bool, dirs: seq<string>)
    requires forall e :: e in d ==> IsDirEvent(e)
    requires Filter(IsDirHeader, d) == Map(DirHeader, dirs)
    ensures var t := Frame(a, d, none);
            && 1 + |a| <= |t|
            && Filter(IsUnpack, t[1 + |a|..]) == []
            && Filter(IsRemoval, t[1 + |a|..]) == []
            && Filter(IsDirHeader, t[1 + |a|..]) == Map(DirHeader, dirs)
  {
    var t := Frame(a, d, none);
    var last := NoDataNote(none) + [Ended];
    assert t[1 + |a|..] == d + last;
    DirEventsQuiet(d);
    ClosingLinesFilter(IsUnpack, none);
    ClosingLinesFilter(IsRemoval, none);
    ClosingLinesFilter(IsDirHeader, none);
    FilterAppend(IsUnpack, d, last);
    FilterAppend(IsRemoval, d, last);
    FilterAppend(IsDirHeader, d, last);
  }

  /** The panel after the start line alone. */
  lemma PanelStart(before: string)
    ensures Panel(before, [Started]) == "Testing strated.\n"
  {
    assert [Started][..0] == [];
  }

  /** The end line alone, written to an empty panel. */
  lemma PanelEnd()
    ensures Panel("", [Ended]) == "Testing ended.\n"
  {
    assert [Ended][..0] == [];
  }

  /** The panel after a run's log shows only that run: whatever it held
      before is erased, its first line is the start line and its last the
      end line. */
  lemma FramePanel(before: string, a: seq<Event>, d: seq<Event>, none: bool)
    requires Filter(IsRunFrame, a) == [] && Filter(IsRunFrame, d) == []
    ensures Panel(before, Frame(a, d, none))
         == "Testing strated.\n" + Panel("", Body(a, d, none)) + "Testing ended.\n"
  {
    var m := Body(a, d, none);
    NoFrameNoStart(a);
    NoFrameNoStart(d);
    assert forall e :: e in m + [Ended] ==> !e.Started?;
    assert Frame(a, d, none) == [Started] + (m + [Ended]);
    PanelAppend(before, [Started], m + [Ended]);
    PanelAppend("", m, [Ended]);
    PanelStart(before);
    PanelEnd();
    AppendAssoc("Testing strated.\n", Panel("", m), "Testing ended.\n");
  }

  // ---------------------------------------------------------------------
  // Properties of the runner's operations.

  /** Testing one directory logs only directory events, with exactly one
      header: its own. */
  lemma TestDirEvents(env: Env, exe: string, dir: string)
    ensures forall e :: e in TestDir(env, exe, dir).log ==> IsDirEvent(e)
    ensures Filter(IsDirHeader, TestDir(env, exe, dir).log) == [DirHeader(dir)]
  {
    var ids := TestIds(env.files(dir));
    RunCasesSkipLine(env, exe, dir, ids);
    DirLogShape(dir, RunCases(env, exe, dir, ids).log);
  }

  /** Testing a list of directories logs one header per directory, in list
      order, and nothing but directory events. */
  lemma {:induction false} TestDirsEvents(env: Env, exe: string, dirs: seq<string>)
    ensures forall e :: e in TestDirs(env, exe, dirs) ==> IsDirEvent(e)
    ensures Filter(IsDirHeader, TestDirs(env, exe, dirs)) == Map(DirHeader, dirs)
    decreases |dirs|
  {
    if dirs != [] {
      var first, rest := TestDir(env, exe, dirs[0]).log, TestDirs(env, exe, dirs[1..]);
      assert TestDirs(env, exe, dirs) == first + rest;
      TestDirEvents(env, exe, dirs[0]);
      TestDirsEvents(env, exe, dirs[1..]);
      DirLogsCons(first, rest, dirs[0], dirs[1..]);
      assert dirs == [dirs[0]] + dirs[1..];
    }
  }

  /** Testing a list of directories is testing its parts one after the
      other: a failing directory never stops the ones after it. */
  lemma {:induction false} TestDirsAppend(env: Env, exe: string, a: seq<string>, b: seq<string>)
    ensures TestDirs(env, exe, a + b) == TestDirs(env, exe, a) + TestDirs(env, exe, b)
    decreases |a|
  {
    if a == [] {
      assert a + b == b;
    } else {
      assert (a + b)[1..] == a[1..] + b;
      TestDirsAppend(env, exe, a[1..], b);
      AppendAssoc(TestDir(env, exe, a[0]).log, TestDirs(env, exe, a[1..]), TestDirs(env, exe, b));
    }
  }

  /** Testing directories never extracts or deletes anything and never logs
      a start, no-data or end line. */
  lemma TestDirsQuiet(env: Env, exe: string, dirs: seq<string>)
    ensures Filter(IsUnpack, TestDirs(env, exe, dirs)) == []
    ensures Filter(IsRemoval, TestDirs(env, exe, dirs)) == []
    ensures Filter(IsRunFrame, TestDirs(env, exe, dirs)) == []
  {
    TestDirsEvents(env, exe, dirs);
    DirEventsQuiet(TestDirs(env, exe, dirs));
  }

  /** An archive is extracted to its target (the archive path without its
      extension, plus `_tmp`) before anything else happens to it; every
      candidate directory found in the target is then tested, in candidate
      order and whatever the verdicts; deleting the target is the very last
      step, and the archive is extracted and deleted exactly once. */
  lemma ArchiveLifecycle(env: Env, exe: string, archive: string)
    ensures var t := TestArchive(env, exe, archive);
            var target := ArchiveTarget(archive);
            && t[..3] == [TestingArchive(archive), Extracting(archive, target), Unpacked(archive, target)]
            && t[|t| - 2] == CleaningUp
            && t[|t| - 1] == Removed(target)
            && Filter(IsDirHeader, t) == Map(DirHeader, DirDiscovery(env, target))
            && Filter(IsUnpack, t) == [Unpacked(archive, target)]
            && Filter(IsRemoval, t) == [Removed(target)]
            && Filter(IsRunFrame, t) == []
  {
    var target := ArchiveTarget(archive);
    var dirs := DirDiscovery(env, target);
    TestDirsEvents(env, exe, dirs);
    ArchiveLogShape(archive, target, TestDirs(env, exe, dirs), dirs);
  }

  /** Testing one archive extracts and deletes its target once and logs no
      framing line. */
  lemma ArchiveEvents(env: Env, exe: string, archive: string)
    ensures Filter(IsUnpack, TestArchive(env, exe, archive)) == [UnpackOf(archive)]
    ensures Filter(IsRemoval, TestArchive(env, exe, archive)) == [RemovalOf(archive)]
    ensures Filter(IsRunFrame, TestArchive(env, exe, archive)) == []
  {
    ArchiveLifecycle(env, exe, archive);
  }

  /** Testing a list of archives extracts and deletes each one's target once,
      in list order, and never logs a start, no-data or end line. */
  lemma {:induction false} TestArchivesEvents(env: Env, exe: string, archives: seq<string>)
    ensures Filter(IsUnpack, TestArchives(env, exe, archives)) == Map(UnpackOf, archives)
    ensures Filter(IsRemoval, TestArchives(env, exe, archives)) == Map(RemovalOf, archives)
    ensures Filter(IsRunFrame, TestArchives(env, exe, archives)) == []
    decreases |archives|
  {
    if archives != [] {
      var first, rest := TestArchive(env, exe, archives[0]), TestArchives(env, exe, archives[1..]);
      assert TestArchives(env, exe, archives) == first + rest;
      ArchiveEvents(env, exe, archives[0]);
      TestArchivesEvents(env, exe, archives[1..]);
      ArchiveLogsCons(first, rest, archives[0], archives[1..]);
      assert archives == [archives[0]] + archives[1..];
    }
  }

  /** Testing archives tests exactly the directories found in their targets,
      archive by archive and in discovery order within each target. */
  lemma {:induction false} TestArchivesHeaders(env: Env, exe: string, archives: seq<string>)
    ensures Filter(IsDirHeader, TestArchives(env, exe, archives)) == Map(DirHeader, ArchiveDirs(env, archives))
    decreases |archives|
  {
    if archives != [] {
      var first, rest := TestArchive(env, exe, archives[0]), TestArchives(env, exe, archives[1..]);
      var found := DirDiscovery(env, ArchiveTarget(archives[0]));
      assert TestArchives(env, exe, archives) == first + rest;
      assert ArchiveDirs(env, archives) == found + ArchiveDirs(env, archives[1..]);
      ArchiveLifecycle(env, exe, archives[0]);
      TestArchivesHeaders(env, exe, archives[1..]);
      FilterAppend(IsDirHeader, first, rest);
      MapAppend(DirHeader, found, ArchiveDirs(env, archives[1..]));
    }
  }

  /** Testing a list of archives is testing its parts one after the other. */
  lemma {:induction false} TestArchivesAppend(env: Env, exe: string, a: seq<string>, b: seq<string>)
    ensures TestArchives(env, exe, a + b) == TestArchives(env, exe, a) + TestArchives(env, exe, b)
    decreases |a|
  {
    if a == [] {
      assert a + b == b;
    } else {
      assert (a + b)[1..] == a[1..] + b;
      TestArchivesAppend(env, exe, a[1..], b);
      AppendAssoc(TestArchive(env, exe, a[0]), TestArchives(env, exe, a[1..]), TestArchives(env, exe, b));
    }
  }

  /** A run does nothing for a file that is not C source. Otherwise it starts
      with the start line and ends with the end line, and its only framing
      lines are those two plus the no-data line, which is logged exactly
      when no archive and no directory was found. */
  lemma RunFrame(isC: bool, source: string, env: Env)
    ensures !isC ==> Run(isC, source, env) == []
    ensures isC ==>
              var t := Run(isC, source, env);
              var where := Dirname(source);
              var none := ArchiveDiscovery(env, where) == [] && DirDiscovery(env, where) == [];
              && |t| >= 2 && t[0] == Started && t[|t| - 1] == Ended
              && Filter(IsRunFrame, t) == [Started] + (if none then [NoTestData] else []) + [Ended]
              && (NoTestData in t <==> none)
  {
    if isC {
      var where := Dirname(source);
      var exe := NoExtName(source);
      var archives := ArchiveDiscovery(env, where);
      var dirs := DirDiscovery(env, where);
      var none := archives == [] && dirs == [];
      TestArchivesEvents(env, exe, archives);
      TestDirsQuiet(env, exe, dirs);
      FrameLines(TestArchives(env, exe, archives), TestDirs(env, exe, dirs), none);
      FrameNoData(TestArchives(env, exe, archives), TestDirs(env, exe, dirs), none);
    }
  }

  /** All archive work comes first: there is a point in a run's log before
      which every archive is extracted and deleted, in discovery order, and
      after which nothing is extracted or deleted and exactly the plain
      directories found next to the source are tested, in discovery order. */
  lemma RunArchivesFirst(isC: bool, source: string, env: Env)
    requires isC
    ensures var t := Run(isC, source, env);
            var where := Dirname(source);
            exists k :: 0 <= k <= |t|
              && Filter(IsUnpack, t[..k]) == Map(UnpackOf, ArchiveDiscovery(env, where))
              && Filter(IsDirHeader, t[..k]) == Map(DirHeader, ArchiveDirs(env, ArchiveDiscovery(env, where)))
              && Filter(IsRemoval, t[..k]) == Map(RemovalOf, ArchiveDiscovery(env, where))
              && Filter(IsUnpack, t[k..]) == []
              && Filter(IsRemoval, t[k..]) == []
              && Filter(IsDirHeader, t[k..]) == Map(DirHeader, DirDiscovery(env, where))
  {
    var where := Dirname(source);
    var exe := NoExtName(source);
    var archives := ArchiveDiscovery(env, where);
    var dirs := DirDiscovery(env, where);
    var a := TestArchives(env, exe, archives);
    TestArchivesEvents(env, exe, archives);
    TestDirsEvents(env, exe, dirs);
    FrameOrderBefore(a, TestDirs(env, exe, dirs), archives == [] && dirs == [], archives);
    FrameOrderAfter(a, TestDirs(env, exe, dirs), archives == [] && dirs == [], dirs);
    TestArchivesHeaders(env, exe, archives);
    FrameHeadersBefore(a, TestDirs(env, exe, dirs), archives == [] && dirs == [], ArchiveDirs(env, archives));
    var k := 1 + |a|;
    assert 0 <= k <= |Run(isC, source, env)|;
  }

  /** The panel after a run shows only that run: whatever it held before is
      erased, its first line is the start line and its last the end line. */
  lemma RunPanel(isC: bool, source: string, env: Env, before: string)
    requires isC
    ensures var t := Run(isC, source, env);
            |t| >= 2
            && Panel(before, t) == "Testing strated.\n" + Panel("", t[1..|t| - 1]) + "Testing ended.\n"
  {
    var where := Dirname(source);
    var exe := NoExtName(source);
    var archives := ArchiveDiscovery(env, where);
    var dirs := DirDiscovery(env, where);
    var a := TestArchives(env, exe, archives);
    var d := TestDirs(env, exe, dirs);
    TestArchivesEvents(env, exe, archives);
    TestDirsQuiet(env, exe, dirs);
    FrameLines(a, d, archives == [] && dirs == []);
    FramePanel(before, a, d, archives == [] && dirs == []);
  }

  /** With no candidate archive or directory present, a run logs exactly the
      start, no-data and end lines. */
  lemma RunWithoutTestData(isC: bool, source: string, env: Env, before: string)
    requires isC
    requires ArchiveDiscovery(env, Dirname(source)) == [] && DirDiscovery(env, Dirname(source)) == []
    ensures Run(isC, source, env) == [Started, NoTestData, Ended]
    ensures Panel(before, Run(isC, source, env))
         == "Testing strated.\n" + "No test data found.\n" + "Testing ended.\n"
  {
    var exe := NoExtName(source);
    assert TestArchives(env, exe, []) == [] && TestDirs(env, exe, []) == [];
    assert Run(isC, source, env) == Frame([], [], true);
    NoDataLog();
    NoDataPanel(before);
  }

  /** The log of a run that found nothing. */
  lemma NoDataLog()
    ensures Frame([], [], true) == [Started, NoTestData, Ended]
  {
    assert Body([], [], true) == [NoTestData];
  }

  /** The panel after a run that found nothing. */
  lemma NoDataPanel(before: string)
    ensures Panel(before, Frame([], [], true))
         == "Testing strated.\n" + "No test data found.\n" + "Testing ended.\n"
  {
    var m := Body([], [], true);
    assert m == [NoTestData];
    FilterSingle(IsRunFrame, NoTestData);
    FramePanel(before, [], [], true);
    PanelNoData();
  }

  /** The no-data line alone, written to an empty panel. */
  lemma PanelNoData()
    ensures Panel("", [NoTestData]) == "No test data found.\n"
  {
    assert [NoTestData][..0] == [];
  }
}

=== FILE: paths.dfy ===
/** POSIX path handling as test.py uses it: `os.path.join` with two parts,
    `os.path.dirname`, the root half of `os.path.splitext`, and the
    runner's `getNoExtName` built from them. */
module Paths {
  import opened Text

  /** The index of the last occurrence of `c` in `s`, or -1 (Python's `rfind`). */
  function LastIndex(s: string, c: char): (i: int)
    ensures -1 <= i < |s|
    ensures i >= 0 ==> s[i] == c
    ensures forall j :: i < j < |s| ==> s[j] != c
  {
    if s == [] then -1
    else if s[|s| - 1] == c then |s| - 1
    else LastIndex(s[..|s| - 1], c)
  }

  /** Searching a concatenation finds the last occurrence in the second part
      if there is one, and otherwise the last one in the first part. */
  lemma {:induction false} LastIndexAppend(a: string, b: string, c: char)
    ensures LastIndex(a + b, c) ==
              if LastIndex(b, c) >= 0 then |a| + LastIndex(b, c) else LastIndex(a, c)
  {
    if b != [] {
      assert (a + b)[..|a + b| - 1] == a + b[..|b| - 1];
      if b[|b| - 1] != c {
        LastIndexAppend(a, b[..|b| - 1], c);
      }
    } else {
      assert a + b == a;
    }
  }

  /** `os.path.join(a, b)` on POSIX: an absolute `b` replaces `a`; otherwise a
      separator is inserted unless `a` is empty or already ends with one. */
  function Join(a: string, b: string): (r: string)
    ensures StartsWith(b, "/") ==> r == b
    ensures !StartsWith(b, "/") ==> r == a + b || r == a + "/" + b
    ensures !StartsWith(b, "/") && a != [] && a[|a| - 1] != '/' ==> r == a + "/" + b
    ensures !StartsWith(b, "/") && (a == [] || a[|a| - 1] == '/') ==> r == a + b
  {
    if StartsWith(b, "/") then b
    else if a == [] || a[|a| - 1] == '/' then a + b
    else a + "/" + b
  }

  /** `s` with trailing separators removed (Python's `rstrip('/')`). */
  function TrimSlashes(s: string): (r: string)
    ensures StartsWith(s, r)
    ensures r == [] || r[|r| - 1] != '/'
    ensures forall i :: |r| <= i < |s| ==> s[i] == '/'
  {
    if s != [] && s[|s| - 1] == '/' then TrimSlashes(s[..|s| - 1]) else s
  }

  predicate AllSlashes(s: string) {
    forall i :: 0 <= i < |s| ==> s[i] == '/'
  }

  /** `os.path.dirname(p)` on POSIX: everything up to the last separator, with
      trailing separators dropped unless the head consists of separators only. */
  function Dirname(p: string): (r: string)
    ensures StartsWith(p, r)
    ensures forall i :: |r| <= i < |p| && i < LastIndex(p, '/') + 1 ==> p[i] == '/'
    ensures |r| <= LastIndex(p, '/') + 1
    ensures LastIndex(p, '/') < 0 ==> r == ""
    ensures LastIndex(p, '/') >= 0 ==> r != []
    ensures r == [] || AllSlashes(r) || r[|r| - 1] != '/'
    ensures AllSlashes(p[..LastIndex(p, '/') + 1]) ==> r == p[..LastIndex(p, '/') + 1]
  {
    var head := p[..LastIndex(p, '/') + 1];
    if head != [] && !AllSlashes(head) then TrimSlashes(head) else head
  }

  /** Some character of `p` at an index in `[lo, hi)` is not a dot. */
  predicate HasNonDot(p: string, lo: int, hi: int)
    requires 0 <= lo && hi <= |p|
  {
    exists i :: lo <= i < hi && p[i] != '.'
  }

  /** The first half of `os.path.splitext(p)` on POSIX. The extension is cut at
      the last dot, provided that dot lies in the final path component and
      is preceded there by a character other than a dot (so `.bashrc` has
      no extension). */
  function Root(p: string): (r: string)
    ensures StartsWith(p, r)
    ensures |p| > 0 ==> |r| > 0
    ensures r != p ==> p[|r|] == '.' && LastIndex(p, '.') == |r|
    ensures r != p ==> forall i :: |r| <= i < |p| ==> p[i] != '/'
    ensures r != p <==> exists i, j :: LastIndex(p, '/') < i < j < |p| && p[i] != '.' && p[j] == '.'
  {
    var sep := LastIndex(p, '/');
    var dot := LastIndex(p, '.');
    if dot > sep && HasNonDot(p, sep + 1, dot) then
      p[..dot]
    else
      p
  }

  /** The extension `os.path.splitext` splits off: empty, or a dot followed by
      characters that are neither dots nor separators. */
  function Ext(p: string): (e: string)
    ensures p == Root(p) + e
    ensures e == [] || (e[0] == '.' && forall i :: 1 <= i < |e| ==> e[i] != '.' && e[i] != '/')
  {
    var r := Root(p);
    assert p == r + p[|r|..];
    p[|r|..]
  }

  /** The runner's `getNoExtName(source)`: `join(dirname(source), splitext(source)[0])`.
      For an absolute path the joined root is itself absolute, so the result is
      the path with its final extension removed. */
  function NoExtName(source: string): (r: string)
    ensures StartsWith(source, "/") ==> r == Root(source) && source == r + Ext(source)
  {
    Join(Dirname(source), Root(source))
  }

  /** For a relative path with a directory part the directory is joined in
      twice: `a/b.c` becomes `a/a/b`, not `a/b`. The editor always supplies
      absolute file names, so the runner never meets this case. */
  lemma NoExtNameDoublesRelativeDir()
    ensures NoExtName("a/b.c") == "a/a/b"
    ensures Root("a/b.c") == "a/b"
  {
    var p := "a/b.c";
    assert p[0] == 'a' && p[1] == '/' && p[2] == 'b' && p[3] == '.' && p[4] == 'c';
    assert LastIndex(p, '/') == 1;
    assert LastIndex(p, '.') == 3;
    assert HasNonDot(p, 2, 3);
    assert Root(p) == "a/b";
    assert p[..2] == "a/" && "a/"[..1] == "a";
    assert !AllSlashes("a/") by {
      assert "a/"[0] == 'a';
    }
    assert Dirname(p) == "a";
  }

  /** The extraction target of an archive: its name without extension, plus `_tmp`. */
  function ArchiveTarget(archive: string): (t: string)
    ensures |t| == |NoExtName(archive)| + 4
    ensures StartsWith(archive, "/") ==> archive == t[..|t| - 4] + Ext(archive)
    ensures t[|t| - 4..] == "_tmp"
  {
    NoExtName(archive) + "_tmp"
  }

  /** A file-name stem with neither separators nor dots. */
  predicate PlainStem(stem: string) {
    stem != [] && forall i :: 0 <= i < |stem| ==> stem[i] != '/' && stem[i] != '.'
  }

  /** The root of `dir + stem + ".tgz"`, where `dir` ends in a separator and the
      stem holds neither separators nor dots, is `dir + stem`. */
  lemma {:induction false} RootOfArchiveName(dir: string, stem: string)
    requires dir != [] && dir[|dir| - 1] == '/'
    requires PlainStem(stem)
    ensures Root(dir + stem + ".tgz") == dir + stem
  {
    var name := stem + ".tgz";
    var p := dir + name;
    assert p == dir + stem + ".tgz";
    assert LastIndex(".tgz", '/') == -1 by {
      assert ".tgz"[..3] == ".tg" && ".tg"[..2] == ".t" && ".t"[..1] == ".";
    }
    assert LastIndex(".tgz", '.') == 0 by {
      assert ".tgz"[..3] == ".tg" && ".tg"[..2] == ".t" && ".t"[..1] == ".";
    }
    assert LastIndex(stem, '/') == -1;
    LastIndexAppend(stem, ".tgz", '/');
    LastIndexAppend(stem, ".tgz", '.');
    LastIndexAppend(dir, name, '/');
    LastIndexAppend(dir, name, '.');
    var sep := LastIndex(p, '/');
    var dot := LastIndex(p, '.');
    assert sep == |dir| - 1;
    assert dot == |dir| + |stem|;
    assert p[sep + 1] == stem[0];
    assert HasNonDot(p, sep + 1, dot);
    assert p[..dot] == dir + stem;
  }

  /** A candidate archive name `<stem>.tgz` placed in an absolute directory
      `where` (one that does not end in a separator) extracts to
      `where/<stem>_tmp`, provided the stem holds neither separators nor dots. */
  lemma ArchiveTargetOfName(where: string, stem: string)
    requires StartsWith(where, "/") && where[|where| - 1] != '/'
    requires PlainStem(stem)
    ensures ArchiveTarget(Join(where, stem + ".tgz")) == where + "/" + stem + "_tmp"
  {
    var name := stem + ".tgz";
    assert name[0] == stem[0] && !StartsWith(name, "/");
    var p := Join(where, name);
    assert p == where + "/" + stem + ".tgz";
    assert StartsWith(p, "/");
    RootOfArchiveName(where + "/", stem);
  }
}

=== FILE: seqs.dfy ===
/** Generic sequence operations the test runner is built from: order-preserving
    filtering (Python's `filter`), mapping, and first-seen de-duplication
    (the `alreadyTested` set of the directory loop). */
module Seqs {

  /** `a` can be obtained from `b` by deleting elements, keeping the order. */
  predicate IsSubseq<T(==)>(a: seq<T>, b: seq<T>)
    decreases |b|
  {
    a == [] || (b != [] && ((a[0] == b[0] && IsSubseq(a[1..], b[1..])) || IsSubseq(a, b[1..])))
  }

  /** No element occurs twice. */
  predicate NoDups<T(==)>(s: seq<T>) {
    forall i, j :: 0 <= i < j < |s| ==> s[i] != s[j]
  }

  /** The index of the first occurrence of `x` in `s`. */
  function IndexOf<T(==)>(s: seq<T>, x: T): (i: nat)
    requires x in s
    ensures i < |s| && s[i] == x
    ensures forall j :: 0 <= j < i ==> s[j] != x
  {
    if s[0] == x then 0 else 1 + IndexOf(s[1..], x)
  }

  /** The elements of `s` satisfying `p`, in their original order. */
  function Filter<T>(p: T -> bool, s: seq<T>): (r: seq<T>)
    ensures |r| <= |s|
  {
    if s == [] then []
    else if p(s[0]) then [s[0]] + Filter(p, s[1..])
    else Filter(p, s[1..])
  }

  /** Filtering keeps exactly the elements that satisfy the predicate. */
  lemma {:induction false} FilterMembers<T>(p: T -> bool, s: seq<T>)
    ensures forall x :: x in Filter(p, s) ==> x in s && p(x)
    ensures forall x :: x in s && p(x) ==> x in Filter(p, s)
  {
    if s != [] {
      FilterMembers(p, s[1..]);
    }
  }

  /** `f` applied to every element of `s`. */
  function Map<T, U>(f: T -> U, s: seq<T>): (r: seq<U>)
    ensures |r| == |s|
    ensures forall i :: 0 <= i < |s| ==> r[i] == f(s[i])
  {
    seq(|s|, i requires 0 <= i < |s| => f(s[i]))
  }

  /** The elements of `s` not in `seen`, each kept at its first occurrence only. */
  function Dedup<T>(s: seq<T>, seen: set<T>): (r: seq<T>)
    ensures forall x :: x in r ==> x in s && x !in seen
    ensures forall x :: x in s && x !in seen ==> x in r
    ensures NoDups(r)
  {
    if s == [] then []
    else if s[0] in seen then Dedup(s[1..], seen)
    else [s[0]] + Dedup(s[1..], seen + {s[0]})
  }

  /** Filtering keeps a subsequence of the input. */
  lemma {:induction false} FilterIsSubseq<T>(p: T -> bool, s: seq<T>)
    ensures IsSubseq(Filter(p, s), s)
  {
    if s != [] {
      FilterIsSubseq(p, s[1..]);
      if p(s[0]) {
        assert Filter(p, s)[1..] == Filter(p, s[1..]);
      } else {
        SubseqOfTail(Filter(p, s), s);
      }
    }
  }

  /** A subsequence of the tail is a subsequence of the whole. */
  lemma SubseqOfTail<T>(a: seq<T>, b: seq<T>)
    requires b != [] && IsSubseq(a, b[1..])
    ensures IsSubseq(a, b)
  {
  }

  /** Filtering distributes over concatenation: each part is filtered on its own. */
  lemma {:induction false} FilterAppend<T>(p: T -> bool, a: seq<T>, b: seq<T>)
    ensures Filter(p, a + b) == Filter(p, a) + Filter(p, b)
  {
    if a != [] {
      assert (a + b)[1..] == a[1..] + b;
      FilterAppend(p, a[1..], b);
    } else {
      assert a + b == b;
    }
  }

  /** Mapping distributes over concatenation. */
  lemma MapAppend<T, U>(f: T -> U, a: seq<T>, b: seq<T>)
    ensures Map(f, a + b) == Map(f, a) + Map(f, b)
  {
  }

  /** De-duplication keeps a subsequence of the input. */
  lemma {:induction false} DedupIsSubseq<T>(s: seq<T>, seen: set<T>)
    ensures IsSubseq(Dedup(s, seen), s)
  {
    if s != [] {
      if s[0] in seen {
        DedupIsSubseq(s[1..], seen);
        SubseqOfTail(Dedup(s, seen), s);
      } else {
        DedupIsSubseq(s[1..], seen + {s[0]});
        assert Dedup(s, seen)[1..] == Dedup(s[1..], seen + {s[0]});
      }
    }
  }

  lemma IndexOfTail<T>(s: seq<T>, x: T)
    requires s != [] && x in s[1..] && x != s[0]
    ensures IndexOf(s, x) == 1 + IndexOf(s[1..], x)
  {
  }

  /** De-duplication lists the kept elements in the order of their first
      occurrence in the input. */
  lemma {:induction false} DedupFirstSeenOrder<T>(s: seq<T>, seen: set<T>)
    ensures forall i, j :: 0 <= i < j < |Dedup(s, seen)| ==>
              IndexOf(s, Dedup(s, seen)[i]) < IndexOf(s, Dedup(s, seen)[j])
  {
    if s != [] {
      var r := Dedup(s, seen);
      if s[0] in seen {
        DedupFirstSeenOrder(s[1..], seen);
        forall x | x in r ensures IndexOf(s, x) == 1 + IndexOf(s[1..], x) {
          IndexOfTail(s, x);
        }
      } else {
        var rest := Dedup(s[1..], seen + {s[0]});
        DedupFirstSeenOrder(s[1..], seen + {s[0]});
        forall x | x in rest ensures IndexOf(s, x) == 1 + IndexOf(s[1..], x) {
          IndexOfTail(s, x);
        }
        forall i, j | 0 <= i < j < |r| ensures IndexOf(s, r[i]) < IndexOf(s, r[j]) {
          assert r[j] == rest[j - 1];
          if i > 0 {
            assert r[i] == rest[i - 1];
          }
        }
      }
    }
  }

  /** Filtering keeps nothing when no element satisfies the predicate. */
  lemma FilterNone<T>(p: T -> bool, s: seq<T>)
    requires forall x :: x in s ==> !p(x)
    ensures Filter(p, s) == []
  {
    FilterMembers(p, s);
    if Filter(p, s) != [] {
      assert Filter(p, s)[0] in Filter(p, s);
    }
  }

  lemma AppendAssoc<T>(a: seq<T>, b: seq<T>, c: seq<T>)
    ensures a + (b + c) == (a + b) + c
  {
  }

  /** The one-element sequence `[x]` when `x` satisfies `p`, else the empty one. */
  function Keep<T>(p: T -> bool, x: T): seq<T> {
    if p(x) then [x] else []
  }

  /** Filtering a sequence that starts with `x`. */
  lemma FilterCons<T>(p: T -> bool, x: T, s: seq<T>)
    ensures Filter(p, [x] + s) == Keep(p, x) + Filter(p, s)
  {
    assert ([x] + s)[0] == x && ([x] + s)[1..] == s;
  }

  /** Filtering a two-element sequence. */
  lemma FilterPair<T>(p: T -> bool, x: T, y: T)
    ensures Filter(p, [x, y]) == Keep(p, x) + Keep(p, y)
  {
    assert [x, y] == [x] + [y] && [y] == [y] + [];
    FilterCons(p, x, [y]);
    FilterCons(p, y, []);
  }

  /** Filtering a three-element sequence. */
  lemma FilterTriple<T>(p: T -> bool, x: T, y: T, z: T)
    ensures Filter(p, [x, y, z]) == Keep(p, x) + Keep(p, y) + Keep(p, z)
  {
    assert [x, y, z] == [x] + [y, z];
    FilterCons(p, x, [y, z]);
    FilterPair(p, y, z);
    AppendAssoc(Keep(p, x), Keep(p, y), Keep(p, z));
  }

  /** Filtering a one-element sequence. */
  lemma FilterSingle<T>(p: T -> bool, x: T)
    ensures Filter(p, [x]) == Keep(p, x)
  {
    assert [x] == [x] + [];
    FilterCons(p, x, []);
  }
}

=== FILE: text.dfy ===
/** The Python string operations the test runner relies on: `startswith`,
    the substring test `in`, slicing `s[:n]`, repetition `c * n`, `strip()`
    and `%d` formatting. Strings are sequences of Unicode scalar values. */
module Text {

  /** Python's `s.startswith(p)`. */
  predicate StartsWith(s: string, p: string) {
    |p| <= |s| && s[..|p|] == p
  }

  /** Python's `sub in s`: `sub` occurs in `s` at some offset. */
  predicate Contains(s: string, sub: string)
    decreases |s|
  {
    StartsWith(s, sub) || (s != [] && Contains(s[1..], sub))
  }

  /** A string that contains `sub` still contains it after anything is put in front. */
  lemma {:induction false} ContainsAfterPrefix(a: string, b: string, sub: string)
    requires Contains(b, sub)
    ensures Contains(a + b, sub)
  {
    if a != [] {
      assert (a + b)[1..] == a[1..] + b;
      ContainsAfterPrefix(a[1..], b, sub);
    } else {
      assert a + b == b;
    }
  }

  /** An occurrence of a word without `_` in `a + b`, where `b` starts with
      `_`, lies entirely within `a` or entirely within `b`. */
  lemma {:induction false} ContainsAcrossUnderscore(a: string, b: string, w: string)
    requires forall i :: 0 <= i < |w| ==> w[i] != '_'
    requires b != [] && b[0] == '_'
    requires Contains(a + b, w)
    ensures Contains(a, w) || Contains(b, w)
  {
    if a == [] {
      assert a + b == b;
    } else if StartsWith(a + b, w) {
      if |w| <= |a| {
        assert (a + b)[..|w|] == a[..|w|];
      } else {
        UnderscoreInWord(a, b, w);
        assert false;
      }
    } else {
      assert (a + b)[1..] == a[1..] + b;
      ContainsAcrossUnderscore(a[1..], b, w);
    }
  }

  /** An occurrence at the start of `a + b` that runs past `a` covers `b`'s first character. */
  lemma UnderscoreInWord(a: string, b: string, w: string)
    requires b != [] && b[0] == '_'
    requires StartsWith(a + b, w) && |w| > |a|
    ensures w[|a|] == '_'
  {
    assert w[|a|] == (a + b)[|a|];
  }

  /** Every character of a prefix occurs in the string. */
  lemma PrefixKeepsChars(s: string, w: string, c: char)
    requires StartsWith(s, w) && c in w
    ensures c in s
  {
    var i :| 0 <= i < |w| && w[i] == c;
    assert s[i] == c;
  }

  /** A string lacking one of a word's characters does not contain the word. */
  lemma {:induction false} MissingCharNotContained(s: string, w: string, c: char)
    requires c in w && c !in s
    ensures !Contains(s, w)
    decreases |s|
  {
    if StartsWith(s, w) {
      PrefixKeepsChars(s, w, c);
      assert false;
    }
    if s != [] {
      MissingCharNotContained(s[1..], w, c);
    }
  }

  /** Python's slice `s[:n]` for `n >= 0`: the first `n` characters, or all of `s`. */
  function Take(s: string, n: nat): (r: string)
    ensures StartsWith(s, r)
    ensures |r| == if |s| < n then |s| else n
  {
    if |s| <= n then s else s[..n]
  }

  /** Python's `c * n` for a one-character string `c`. */
  function Repeat(c: char, n: nat): (r: string)
    ensures |r| == n
    ensures forall i :: 0 <= i < n ==> r[i] == c
  {
    seq(n, _ => c)
  }

  /** The characters Python's `str.isspace()` accepts, which `str.strip()` removes. */
  predicate IsSpace(c: char) {
    || '\t' <= c <= '\r'
    || '\U{1C}' <= c <= ' '
    || c == '\U{85}' || c == '\U{A0}' || c == '\U{1680}'
    || '\U{2000}' <= c <= '\U{200A}'
    || c == '\U{2028}' || c == '\U{2029}' || c == '\U{202F}' || c == '\U{205F}' || c == '\U{3000}'
  }

  predicate AllSpace(s: string) {
    forall i :: 0 <= i < |s| ==> IsSpace(s[i])
  }

  /** The number of white-space characters `s` starts with. */
  function LeadingSpace(s: string): (n: nat)
    ensures n <= |s|
    ensures AllSpace(s[..n])
    ensures n < |s| ==> !IsSpace(s[n])
  {
    if s == [] || !IsSpace(s[0]) then 0 else 1 + LeadingSpace(s[1..])
  }

  /** The number of white-space characters `s` ends with. */
  function TrailingSpace(s: string): (n: nat)
    ensures n <= |s|
    ensures AllSpace(s[|s| - n..])
    ensures n < |s| ==> !IsSpace(s[|s| - n - 1])
  {
    if s == [] || !IsSpace(s[|s| - 1]) then 0 else 1 + TrailingSpace(s[..|s| - 1])
  }

  /** Python's `s.strip()`: the middle of `s` once white space at both ends is
      cut off. The result neither starts nor ends with white space, it sits in
      `s` right after the leading white space, and only white space was cut. */
  function Strip(s: string): (r: string)
    ensures r == [] || (!IsSpace(r[0]) && !IsSpace(r[|r| - 1]))
    ensures LeadingSpace(s) + |r| <= |s|
    ensures s[LeadingSpace(s)..LeadingSpace(s) + |r|] == r
    ensures AllSpace(s[LeadingSpace(s) + |r|..])
  {
    var lead := LeadingSpace(s);
    var rest := s[lead..];
    var trail := TrailingSpace(rest);
    StripParts(s, lead, trail);
    assert |rest| - trail > 0 ==> lead < |s| && !IsSpace(s[lead]);
    assert |rest| - trail > 0 ==> trail < |rest| && !IsSpace(rest[|rest| - trail - 1]);
    rest[..|rest| - trail]
  }

  /** Cutting `lead` characters off the front of `s` and then `trail` off
      the back leaves the middle of `s`. */
  lemma StripParts(s: string, lead: nat, trail: nat)
    requires lead <= |s| && trail <= |s| - lead
    ensures var r := s[lead..][..|s| - lead - trail];
            && (r != [] ==> r[0] == s[lead] && r[|r| - 1] == s[lead..][|s| - lead - trail - 1])
            && s[lead..lead + |r|] == r
            && s[lead + |r|..] == s[lead..][|s| - lead - trail..]
  {
  }

  function DigitChar(d: nat): (c: char)
    requires d < 10
  {
    "0123456789"[d]
  }

  function DigitValue(c: char): nat {
    if '0' <= c <= '9' then (c as int - '0' as int) as nat else 0
  }

  predicate IsDigit(c: char) {
    '0' <= c <= '9'
  }

  /** The decimal numeral of `n`, without leading zeros. */
  function NatToString(n: nat): (s: string)
    ensures |s| > 0 && (forall i :: 0 <= i < |s| ==> IsDigit(s[i]))
    ensures |s| > 1 ==> s[0] != '0'
  {
    if n < 10 then [DigitChar(n)] else NatToString(n / 10) + [DigitChar(n % 10)]
  }

  /** The value of a string of decimal digits. */
  function ParseNat(s: string): nat {
    if s == [] then 0 else 10 * ParseNat(s[..|s| - 1]) + DigitValue(s[|s| - 1])
  }

  /** Python's `"%d" % n`: an optional minus sign and the decimal numeral of `|n|`. */
  function IntToString(n: int): (s: string)
    ensures |s| > 0
    ensures s[0] == '-' <==> n < 0
  {
    if n < 0 then "-" + NatToString(-n) else NatToString(n)
  }

  /** The value of a numeral as `IntToString` writes it. */
  function ParseInt(s: string): int {
    if s != [] && s[0] == '-' then -(ParseNat(s[1..]) as int) else ParseNat(s)
  }

  lemma {:induction false} ParseNatToString(n: nat)
    ensures ParseNat(NatToString(n)) == n
  {
    if n >= 10 {
      var s := NatToString(n);
      assert s[..|s| - 1] == NatToString(n / 10);
      ParseNatToString(n / 10);
    }
  }

  /** `%d` formatting loses nothing: the numeral reads back as the same integer. */
  lemma IntToStringRoundTrip(n: int)
    ensures ParseInt(IntToString(n)) == n
  {
    if n < 0 {
      var digits := NatToString(-n);
      assert IntToString(n) == "-" + digits;
      assert ("-" + digits)[1..] == digits;
      ParseNatToString(-n);
    } else {
      ParseNatToString(n);
    }
  }
}
